=== FILE: README.md ===
# Product catalog service — a Dafny model

This project models the product catalog of a NestJS/TypeORM backend: the
`ProductsService` that creates, lists, looks up, updates and deletes products
with their ordered image lists, and the `GetUser` parameter extractor that
hands the authenticated user (or one of its properties) to a route.

The database is abstracted as an immutable `Store`: product rows in the
storage engine's natural order. Each row has a uuid key, its scalar columns
(title, slug, price, description, stock, sizes, gender, tags), its ordered image
identifiers and its owner. Every operation is a pure function that returns
`Result<Applied<T>, HttpError>`. A success carries the new store and the value
returned to the caller. A thrown exception carries no store, so the caller keeps
the store it had: that is how rollback is modelled.

Storage failures are explicit oracle inputs:
- `Option<DbError>` for single statements;
- `TxFault(step, error)` for the update transaction, where step `|ops|` is the commit;
- the key the database generates for a new row.

`HOST_API` and the entity's eager-loading setting for images are fields of a
`Config` value.

Modules:
- `Wrappers`: `Option` and `Result`.
- `Text`: ASCII `Lower` and the RFC 4122 section 3 textual layout, 8-4-4-4-12 hex digits (`IsUuid`).
- `Errors`: storage errors, HTTP exceptions, `HandleDbExceptions`.
- `ProductUrls`: `HOST_API + "/files/product/" + id`, and its inverse.
- `Catalog`: rows, store invariant, lookups, patch merge.
- `Transactions`: the query runner's writes, commit and rollback.
- `ProductsService`: the service operations.
- `ProductsProperties`: lemmas relating the operations to each other.
- `GetUserDecorator`: the extractor.

Behaviours of the code worth knowing:
- A duplicate key (`23505`) becomes a **BadRequest** carrying the driver's detail.
- `create` returns the saved entity with its **raw** image identifiers, plus a
  field `productWithUrls` holding an object `{ images: [...] }` with the
  materialised URLs. It does not rewrite `images`.
- Not every storage failure goes through the error mapping. A failing delete in
  `remove` escapes unchanged (`HttpError.Unhandled`).
- A UUID-shaped term is compared with the stored key the way a uuid column
  compares it, that is case-insensitively. Keys are stored in lower case.

## Model

| member | source | states |
|---|---|---|
| `Errors.HandleDbExceptions` | src/products/products.service.ts:144-152 | the mapping yields BadRequest exactly when the code is `23505`, carrying the error's detail; every other error becomes InternalServerError `Ayuda!` |
| `Errors.HandleDbExceptionsHidesDetail` | src/products/products.service.ts:150-151 | any two non-duplicate-key failures are reported identically, so no internal detail reaches the caller |
| `Text.Lower` | src/products/products.service.ts:77 | `LOWER` keeps the length, folds each ASCII capital to its small letter, and leaves no ASCII capital in the result |
| `Text.LowerEqualIffCaseless` | src/products/products.service.ts:77 | two strings compare equal under `LOWER` exactly when they have the same length and agree character by character up to ASCII case |
| `Text.UuidGroups` | src/products/products.service.ts:72 | the UUID test accepts exactly 36 characters laid out as hex groups of 8, 4, 4, 4 and 12 digits of either case, separated by hyphens at positions 8, 13, 18 and 23 |
| `Text.UuidIffCanonicalLower` | src/products/products.service.ts:72-73 | a term is UUID-shaped exactly when its lower-cased form is a canonical stored key |
| `ProductUrls.ImageUrls` | src/products/products.service.ts:94 | materialisation keeps the count and order of images, and element k is `HOST_API/files/product/` followed by identifier k |
| `ProductUrls.RawImage` | src/products/products.service.ts:94 | stripping the prefix from a URL recovers an identifier whose materialisation is that URL |
| `ProductUrls.ImageUrlRoundTrip` | src/products/products.service.ts:94 | stripping the prefix from a materialised URL gives back the stored identifier |
| `ProductUrls.ImageUrlsRoundTrip` | src/products/products.service.ts:94 | a materialised image list strips back to the identifier list, in order |
| `ProductUrls.RawImagesInverse` | src/products/products.service.ts:94 | a URL list that strips back to identifiers is exactly their materialisation |
| `Catalog.FirstIndex` | src/products/products.service.ts:76-80 | the query's single result is the first row, in natural order, that satisfies the condition; no result means no row satisfies it |
| `Catalog.IdIndexUnique` | src/products/products.service.ts:73 | in a valid store, a key lookup finds the one row carrying that key |
| `Catalog.MergeKeepsAbsentColumns` | src/products/products.service.ts:100-105 | after preload, each column present in the patch takes the patch's value and each absent column keeps its stored value |
| `Catalog.MergeIdempotent` | src/products/products.service.ts:100-105 | merging the same patch twice equals merging it once, and an empty patch changes nothing |
| `Transactions.ClearImages` | src/products/products.service.ts:118-120 | the image delete keeps every row's key, columns and owner and keeps the store valid; in a valid store it empties the images of the one row the key finds and changes nothing else; an unknown key changes nothing |
| `Transactions.SaveRow` | src/products/products.service.ts:125 | saving an entity whose key is present overwrites a row with that key and keeps every other row; an absent key appends the entity; a valid store stays valid when the key is a canonical uuid |
| `Transactions.RunOpsConcat` | src/products/products.service.ts:115-126 | running two batches of writes in sequence is the same as running them as one batch |
| `Transactions.WorkingStep` | src/products/products.service.ts:115-126 | the working copy after k+1 writes is the one after k writes with write k applied |
| `Transactions.RunTransaction` | src/products/products.service.ts:111-134 | the transaction fails exactly when a write or the commit fails, with that step's error; on success the committed store is, at every point of the transaction, the working copy there with the remaining writes applied |
| `Transactions.ClearThenSave` | src/products/products.service.ts:117-125 | in a valid store, deleting a product's images and then saving the entity replaces exactly that row |
| `ProductsService.Create` | src/products/products.service.ts:27-49 | appends one row with the generated key, the given columns, one image per supplied identifier in order (none when `images` is missing) and the user as owner; returns it with raw images plus a `productWithUrls` object whose `images` are the materialised URLs; a save failure leaves the store as it was and surfaces only as a mapped error |
| `ProductsService.Page` | src/products/products.service.ts:54-56 | `take`/`skip` return at most `limit` rows: the run of rows that starts after the first `offset` rows |
| `ProductsService.FindAll` | src/products/products.service.ts:51-68 | returns the page's rows in order, each with every image materialised; a query failure surfaces only as a mapped error |
| `ProductsService.FindOne` | src/products/products.service.ts:70-88 | a UUID-shaped term succeeds exactly when some key matches it, returning that row; any other term succeeds exactly when a title matches case-insensitively or a slug matches exactly, returning the first such row with its images; otherwise NotFound with the term in the message |
| `ProductsService.FindOnePlain` | src/products/products.service.ts:90-96 | succeeds exactly when `findOne` does; keeps id, columns and owner, and maps each image to its URL in order, with unloaded images becoming an empty list |
| `ProductsService.Update` | src/products/products.service.ts:98-136 | an unknown key gives NotFound and no change; a failure at any write or at the commit gives the mapped error and no change; within the model no other error kinds occur |
| `ProductsService.Without` | src/products/products.service.ts:140 | every remaining row has a different key and came from the input, every row with a different key remains, there are no more rows than before, and an absent key changes nothing |
| `ProductsService.WithoutDeletesOne` | src/products/products.service.ts:140 | with distinct keys, deleting a present key removes exactly that one row and keeps the others in their order |
| `ProductsService.Remove` | src/products/products.service.ts:138-142 | resolves the argument as `findOne` does and propagates its NotFound; when the product is found and the delete does not fail it succeeds and returns that product; with distinct keys the store afterwards is the old one with exactly that row removed, order kept; a failing delete escapes unmapped |
| `ProductsService.DeleteAllProducts` | src/products/products.service.ts:154-166 | on success the store is empty and the affected count is the former number of rows; a failure surfaces only as a mapped error |
| `ProductsProperties.NonUuidTermMatchesNoKey` | src/products/products.service.ts:72-78 | in a valid store a term that is not UUID-shaped matches no key, so the title/slug branch misses no id match |
| `ProductsProperties.UuidTermIgnoresTitleAndSlug` | src/products/products.service.ts:72-73 | for a UUID-shaped term the outcome depends only on the keys, never on titles or slugs |
| `ProductsProperties.DualKeyResolution` | src/products/products.service.ts:75-85 | a product titled "Blue Shirt" with slug "blue-shirt-v2" is found by "BLUE SHIRT" and by "blue-shirt-v2" but not by "blue-shirt" |
| `ProductsProperties.FindOnePlainStripsBack` | src/products/products.service.ts:90-95 | the URLs `findOnePlain` returns differ from the identifiers `findOne` loaded only by the fixed prefix |
| `ProductsProperties.CreateThenFindOne` | src/products/products.service.ts:27-38 | after a successful create the store stays valid and the new key finds the created product |
| `ProductsProperties.PagesTile` | src/products/products.service.ts:54-56 | consecutive pages of n and m rows concatenate to the page of n+m rows: disjoint and gap-free |
| `ProductsProperties.FindAllPagesTile` | src/products/products.service.ts:51-64 | two consecutive `findAll` pages list exactly the products of one page spanning both |
| `ProductsProperties.UpdateSucceeds` | src/products/products.service.ts:98-129 | without a failure, update changes only the target row: patched columns merged, absent columns kept; images replaced wholesale exactly when the patch carries a list, an empty list included; owner set to the acting user; the store stays valid and the response is the re-read row |
| `ProductsProperties.UpdateRollsBack` | src/products/products.service.ts:115-134 | a failure after the image delete and before the save finds the working copy with the product's images emptied and is reported through the mapping; that the caller keeps the old images holds by construction, since a failure carries no store |
| `ProductsProperties.UpdateIdempotent` | src/products/products.service.ts:98-129 | repeating a successful update with the same patch and user leaves the store unchanged |
| `ProductsProperties.PriceOnlyPatchKeepsRest` | src/products/products.service.ts:100-105 | a price-only patch keeps description, stock and images, and still reassigns the owner |
| `ProductsProperties.WithoutKeepsValid` | src/products/products.service.ts:140 | removing rows by key keeps keys canonical and unique |
| `ProductsProperties.RemoveThenNotFound` | src/products/products.service.ts:138-141 | after removing by key the store is valid and the same key is no longer found |
| `ProductsProperties.DeleteAllThenEmpty` | src/products/products.service.ts:154-161 | after the bulk delete no term finds a product and every page is empty |
| `GetUserDecorator.GetUser` | src/auth/decorators/get-user.decorator.ts:6-15 | fails with BadRequest `User not found (request)` exactly when the request has no user; an absent or empty argument gives the whole user; a non-empty one gives that property, or `undefined` when it is absent, never an error |
| `GetUserDecorator.GetUserReadsOnlyUser` | src/auth/decorators/get-user.decorator.ts:6-7 | the result depends only on the request's user and the argument |
| `GetUserDecorator.PropertyIsProjectionOfWholeUser` | src/auth/decorators/get-user.decorator.ts:13-15 | asking for a property gives the same value as projecting the whole-user result |

## Left out

- Logging (`this.logger.error`) in the error mapping: a side effect with no effect on results.
- The seed service. Its only behaviour is un-awaited asynchronous calls: `deleteAllProducts` and `create` are not awaited, and the awaited promise list stays empty. That is timing, not sequential logic. `runSeed` always returns `"Seed execute"`.
- The auth controller: HTTP routing that delegates to an authentication service that is not part of this model.
- Concurrency, isolation levels, connection pooling and `queryRunner.connect/release`. A transaction is modelled as a working copy, committed whole or dropped.
- Slug derivation, column defaults and key generation belong to the entity and the database, which are not part of this model. `CreateDto.fields` are the stored columns. The generated key is an input that must be a fresh canonical uuid.
- Uniqueness constraints on title or slug appear only as a possible save failure with code `23505`.
- ProductImage row ids and the cascade configuration: images are the ordered list of their identifiers.
- Whether a primary-key `findOneBy` loads images is the `Config.eagerImages` parameter. Loading of the `user` relation is not modelled: views carry the stored owner.
- `Text.Lower` folds ASCII letters only. Full Unicode case mapping in the database's `LOWER` is not modelled.
- `price` is a `real`: floating-point rounding is not modelled.
- FindOne: failures of the lookup queries themselves are not modelled. In the code they would escape without going through the mapping.
- Update: failures of `startTransaction` (outside the `try`) and of `rollbackTransaction` or `release` inside the `catch` are not modelled. In the code they escape without going through the error mapping, a failing rollback replacing the original error.
- Remove: the returned product is modelled as `findOne` loaded it, key included. The ORM's `remove` clears the primary key of the object it deletes, so callers actually receive it without an `id`; that ORM behaviour is not modelled.
- Update: the preload query cannot fail in the model. A key that is not UUID-shaped is reported as NotFound. In the code, the database would reject such a key with its own unmapped error.
- Update: the re-read after the commit cannot fail in a valid store (`ProductsProperties.UpdateSucceeds`). If it did fail, the code would keep the committed change, because the re-read's promise is returned without `await` and its rejection never reaches the `catch`. The model reports that failure with no new store, so it does not represent the kept commit.
- FindAll: validation of the pagination parameters and any special treatment of `take: 0` by the ORM are not modelled. A limit of 0 returns no rows.
- GetUser: the argument is a property name or absent. Other JavaScript values for the argument (`0`, `false`, `null`, arrays) are not representable. Inherited (prototype) properties of the user object are not modelled, and neither is the `ExecutionContext` plumbing.

=== FILE: catalog.dfy ===
/** The product store: product rows in the storage engine's natural order, each
    carrying its scalar columns, its ordered image identifiers and its owner. */
module Catalog {
  import opened Wrappers
  import opened Text

  /** The principal attached to a product as its owner. */
  datatype User = User(id: string, fullName: string)

  /** The scalar columns of a product. */
  datatype Fields = Fields(
    title: string,
    slug: string,
    price: real,
    description: string,
    stock: int,
    sizes: seq<string>,
    gender: string,
    tags: seq<string>)

  /** One product row together with its owned image identifiers. */
  datatype Product = Product(id: string, fields: Fields, images: seq<string>, owner: Option<User>)

  /** The whole catalog, in natural row order. */
  datatype Store = Store(rows: seq<Product>)

  /** Database invariants: keys are canonical uuids and the primary key is unique. */
  predicate Valid(s: Store) {
    && (forall i :: 0 <= i < |s.rows| ==> IsCanonicalUuid(s.rows[i].id))
    && (forall i, j :: 0 <= i < j < |s.rows| ==> s.rows[i].id != s.rows[j].id)
  }

  /** The store holds a row with key `id`. */
  predicate HasId(s: Store, id: string) {
    exists i :: 0 <= i < |s.rows| && s.rows[i].id == id
  }

  /** The first position whose element satisfies `p`, as a query's `getOne`
      returns the first matching row. */
  function FirstIndex<T>(xs: seq<T>, p: T -> bool): (r: Option<nat>)
    ensures r.Some? ==> r.value < |xs| && p(xs[r.value])
    ensures r.Some? ==> forall j :: 0 <= j < r.value ==> !p(xs[j])
    ensures r.None? <==> forall j :: 0 <= j < |xs| ==> !p(xs[j])
  {
    if xs == [] then None
    else if p(xs[0]) then Some(0)
    else match FirstIndex(xs[1..], p)
      case None => None
      case Some(j) => Some(j + 1)
  }

  /** `id = :key` on a uuid column: the key is compared case-insensitively
      against the canonical (lower-case) stored key. */
  predicate KeyMatches(row: Product, key: string) {
    row.id == Lower(key)
  }

  /** The title matches the term ignoring case, or the slug matches it exactly. */
  predicate TermMatches(row: Product, term: string) {
    Lower(row.fields.title) == Lower(term) || row.fields.slug == term
  }

  /** The row a primary-key lookup finds. */
  function IdIndex(s: Store, key: string): Option<nat> {
    FirstIndex(s.rows, (row: Product) => KeyMatches(row, key))
  }

  /** The row the title-or-slug query returns first. */
  function TermIndex(s: Store, term: string): Option<nat> {
    FirstIndex(s.rows, (row: Product) => TermMatches(row, term))
  }

  /** In a valid store a key names at most one row, so the lookup finds THE row. */
  lemma IdIndexUnique(s: Store, key: string, i: nat)
    requires Valid(s)
    requires i < |s.rows| && KeyMatches(s.rows[i], key)
    ensures IdIndex(s, key) == Some(i)
  {
  }

  /** An update payload: every scalar column optional, plus an optional
      replacement image list. */
  datatype Patch = Patch(
    title: Option<string>,
    slug: Option<string>,
    price: Option<real>,
    description: Option<string>,
    stock: Option<int>,
    sizes: Option<seq<string>>,
    gender: Option<string>,
    tags: Option<seq<string>>,
    images: Option<seq<string>>)

  /** The patch that changes nothing. */
  const EmptyPatch: Patch := Patch(None, None, None, None, None, None, None, None, None)

  /** The scalar part of `preload({id, ...toUpdate})`: the patch's columns
      overwrite the stored ones, absent columns keep their stored value. */
  function Merge(f: Fields, p: Patch): Fields {
    Fields(
      p.title.GetOr(f.title),
      p.slug.GetOr(f.slug),
      p.price.GetOr(f.price),
      p.description.GetOr(f.description),
      p.stock.GetOr(f.stock),
      p.sizes.GetOr(f.sizes),
      p.gender.GetOr(f.gender),
      p.tags.GetOr(f.tags))
  }

  /** Every column is either the patch's value (when present) or the stored one. */
  lemma MergeKeepsAbsentColumns(f: Fields, p: Patch)
    ensures p.title.None? ==> Merge(f, p).title == f.title
    ensures p.title.Some? ==> Merge(f, p).title == p.title.value
    ensures p.slug.None? ==> Merge(f, p).slug == f.slug
    ensures p.slug.Some? ==> Merge(f, p).slug == p.slug.value
    ensures p.price.None? ==> Merge(f, p).price == f.price
    ensures p.price.Some? ==> Merge(f, p).price == p.price.value
    ensures p.description.None? ==> Merge(f, p).description == f.description
    ensures p.description.Some? ==> Merge(f, p).description == p.description.value
    ensures p.stock.None? ==> Merge(f, p).stock == f.stock
    ensures p.stock.Some? ==> Merge(f, p).stock == p.stock.value
    ensures p.sizes.None? ==> Merge(f, p).sizes == f.sizes
    ensures p.sizes.Some? ==> Merge(f, p).sizes == p.sizes.value
    ensures p.gender.None? ==> Merge(f, p).gender == f.gender
    ensures p.gender.Some? ==> Merge(f, p).gender == p.gender.value
    ensures p.tags.None? ==> Merge(f, p).tags == f.tags
    ensures p.tags.Some? ==> Merge(f, p).tags == p.tags.value
  {
  }

  /** Merging is idempotent, and the empty patch is the identity. */
  lemma MergeIdempotent(f: Fields, p: Patch)
    ensures Merge(Merge(f, p), p) == Merge(f, p)
    ensures Merge(f, EmptyPatch) == f
  {
  }
}

=== FILE: errors.dfy ===
/** The exceptions the catalog raises and the storage errors it receives. */
module Errors {

  /** A driver error as the database reports it: a SQLSTATE code and a detail line. */
  datatype DbError = DbError(code: string, detail: string)

  /** The HTTP exceptions the service throws. `Unhandled` is a storage error that
      escapes without going through the service's error mapping. */
  datatype HttpError =
    | BadRequest(message: string)
    | NotFound(message: string)
    | InternalServerError(message: string)
    | Unhandled(cause: DbError)

  /** SQLSTATE of a unique-constraint violation. */
  const UniqueViolation: string := "23505"

  /** The opaque message every other storage failure is reported with. */
  const OpaqueMessage: string := "Ayuda!"

  /** The two kinds of error the mapping of storage failures can produce. */
  predicate IsMappedDbError(e: HttpError) {
    e.BadRequest? || e == InternalServerError(OpaqueMessage)
  }

  /** `handleDBExceptions`: a duplicate key becomes a BadRequest carrying the
      driver's detail; anything else becomes the opaque internal error. */
  function HandleDbExceptions(e: DbError): (r: HttpError)
    ensures IsMappedDbError(r)
    ensures r.BadRequest? <==> e.code == UniqueViolation
    ensures r.BadRequest? ==> r.message == e.detail
  {
    if e.code == UniqueViolation then BadRequest(e.detail) else InternalServerError(OpaqueMessage)
  }

  /** Apart from a duplicate key, nothing of the storage error reaches the caller:
      two non-duplicate failures are reported identically. */
  lemma HandleDbExceptionsHidesDetail(e1: DbError, e2: DbError)
    requires e1.code != UniqueViolation && e2.code != UniqueViolation
    ensures HandleDbExceptions(e1) == HandleDbExceptions(e2)
  {
  }
}

=== FILE: get_user.dfy ===
/** The `GetUser` route-parameter extractor: the authenticated user attached to
    the request, or one of its properties. */
module GetUserDecorator {
  import opened Wrappers
  import opened Errors

  /** A property value of the user object. */
  datatype Value = Str(s: string) | Num(n: int) | Bool(b: bool) | Null | Strings(items: seq<string>)

  /** The user object the authentication guard attaches, as its own properties. */
  type UserObject = map<string, Value>

  /** The parts of the HTTP request the extractor can see: `req.user`, and
      everything else, which it ignores. */
  datatype Request = Request(user: Option<UserObject>, headers: map<string, string>)

  /** What the extractor hands to the route: the whole user, or the value of
      one property (`None` for `undefined`). */
  datatype Param = WholeUser(user: UserObject) | Property(value: Option<Value>)

  const UserNotFoundMessage: string := "User not found (request)"

  /** JavaScript truthiness of the decorator argument: absent and `""` are falsy. */
  predicate IsTruthy(data: Option<string>) {
    data.Some? && data.value != ""
  }

  /** `user[name]` for an own property; `undefined` when the property is absent. */
  function Project(user: UserObject, name: string): Option<Value> {
    if name in user then Some(user[name]) else None
  }

  /** The extractor body: no user is a BadRequest, a falsy argument selects
      the whole user, a truthy one the named property. */
  function GetUser(data: Option<string>, req: Request): (r: Result<Param, HttpError>)
    ensures r.Failure? <==> req.user.None?
    ensures r.Failure? ==> r.error == BadRequest(UserNotFoundMessage)
    ensures r.Success? ==> (r.value.WholeUser? <==> !IsTruthy(data))
    ensures r.Success? && r.value.WholeUser? ==> r.value.user == req.user.value
    ensures r.Success? && r.value.Property? ==>
      && (r.value.value.Some? <==> data.value in req.user.value)
      && (r.value.value.Some? ==> r.value.value.value == req.user.value[data.value])
  {
    match req.user
    case None => Failure(BadRequest(UserNotFoundMessage))
    case Some(user) => Success(if !IsTruthy(data) then WholeUser(user) else Property(Project(user, data.value)))
  }

  /** The result depends on `req.user` and the argument only. */
  lemma GetUserReadsOnlyUser(data: Option<string>, r1: Request, r2: Request)
    requires r1.user == r2.user
    ensures GetUser(data, r1) == GetUser(data, r2)
  {
  }

  /** Asking for a property gives what projecting the whole user would give:
      the two modes of the extractor agree. */
  lemma PropertyIsProjectionOfWholeUser(name: string, req: Request)
    requires name != ""
    ensures GetUser(Some(name), req).Success? <==> GetUser(None, req).Success?
    ensures GetUser(None, req).Success? ==>
      GetUser(Some(name), req) == Success(Property(Project(GetUser(None, req).value.user, name)))
  {
  }
}

=== FILE: image_urls.dfy ===
/** Turning stored image identifiers into the URLs returned to callers. */
module ProductUrls {
  import opened Wrappers

  /** The path every image is served under, below `HOST_API`. */
  const FilesPath: string := "/files/product/"

  /** The prefix `HOST_API + "/files/product/"` for a given host. */
  function Prefix(host: string): string {
    host + FilesPath
  }

  /** The URL an image is served at: the prefix followed by the stored identifier. */
  function ImageUrl(host: string, raw: string): string {
    Prefix(host) + raw
  }

  /** Materialises a whole image list, keeping count and order. */
  function ImageUrls(host: string, raws: seq<string>): (urls: seq<string>)
    ensures |urls| == |raws|
    ensures forall i :: 0 <= i < |raws| ==> urls[i] == ImageUrl(host, raws[i])
  {
    if raws == [] then [] else [ImageUrl(host, raws[0])] + ImageUrls(host, raws[1..])
  }

  /** The inverse of `ImageUrl`: the stored identifier behind a served URL, if the
      URL carries the prefix. */
  function RawImage(host: string, url: string): (r: Option<string>)
    ensures r.Some? ==> url == ImageUrl(host, r.value)
  {
    var p := Prefix(host);
    if |p| <= |url| && url[..|p|] == p then
      assert url == p + url[|p|..];
      Some(url[|p|..])
    else None
  }

  /** The inverse of `ImageUrls`, defined when every URL carries the prefix. */
  function RawImages(host: string, urls: seq<string>): (r: Option<seq<string>>)
  {
    if urls == [] then Some([])
    else match (RawImage(host, urls[0]), RawImages(host, urls[1..]))
      case (Some(x), Some(xs)) => Some([x] + xs)
      case _ => None
  }

  /** A materialised URL differs from its identifier only by the fixed prefix. */
  lemma ImageUrlRoundTrip(host: string, raw: string)
    ensures RawImage(host, ImageUrl(host, raw)) == Some(raw)
  {
  }

  /** Materialising a list loses nothing: the identifiers are recovered in order. */
  lemma {:induction false} ImageUrlsRoundTrip(host: string, raws: seq<string>)
    ensures RawImages(host, ImageUrls(host, raws)) == Some(raws)
  {
    if raws != [] {
      var urls := ImageUrls(host, raws);
      assert urls[1..] == ImageUrls(host, raws[1..]);
      ImageUrlRoundTrip(host, raws[0]);
      ImageUrlsRoundTrip(host, raws[1..]);
      assert [raws[0]] + raws[1..] == raws;
    }
  }

  /** Conversely, a list that strips back to identifiers is exactly their
      materialisation: URLs and identifiers determine each other. */
  lemma {:induction false} RawImagesInverse(host: string, urls: seq<string>, raws: seq<string>)
    requires RawImages(host, urls) == Some(raws)
    ensures urls == ImageUrls(host, raws)
  {
    if urls != [] {
      var x := RawImage(host, urls[0]).value;
      var xs := RawImages(host, urls[1..]).value;
      RawImagesInverse(host, urls[1..], xs);
      assert raws == [x] + xs;
      assert raws[1..] == xs;
    }
  }
}

=== FILE: products_properties.dfy ===
/** Properties relating the catalog operations to each other and to the
    store invariants. */
module ProductsProperties {
  import opened Wrappers
  import opened Text
  import opened Errors
  import opened ProductUrls
  import opened Catalog
  import opened Transactions
  import opened ProductsService

  // ---------------------------------------------------------------- lookup

  /** A term that is not UUID-shaped can never equal a stored key, so sending
      it to the title/slug query loses no match. */
  lemma NonUuidTermMatchesNoKey(s: Store, term: string)
    requires Valid(s) && !IsUuid(term)
    ensures forall i :: 0 <= i < |s.rows| ==> !KeyMatches(s.rows[i], term)
  {
  }

  /** A UUID-shaped term consults the keys only: two stores with the same keys
      in the same order give the same answer, whatever their titles and slugs. */
  lemma UuidTermIgnoresTitleAndSlug(cfg: Config, s1: Store, s2: Store, term: string)
    requires IsUuid(term)
    requires |s1.rows| == |s2.rows|
    requires forall k :: 0 <= k < |s1.rows| ==> s1.rows[k].id == s2.rows[k].id
    ensures FindOne(cfg, s1, term).Success? <==> FindOne(cfg, s2, term).Success?
    ensures FindOne(cfg, s1, term).Success? ==> FindOne(cfg, s1, term).value.id == FindOne(cfg, s2, term).value.id
  {
  }

  /** Title matches ignore case, slug matches do not: a product titled
      "Blue Shirt" with slug "blue-shirt-v2" is found by "BLUE SHIRT" and by
      "blue-shirt-v2", but not by "blue-shirt". */
  lemma DualKeyResolution(cfg: Config, id: string, f: Fields, owner: Option<User>)
    requires f.title == "Blue Shirt" && f.slug == "blue-shirt-v2"
    ensures var s := Store([Product(id, f, [], owner)]);
      && FindOne(cfg, s, "BLUE SHIRT").Success?
      && FindOne(cfg, s, "blue-shirt-v2").Success?
      && FindOne(cfg, s, "BLUE SHIRT") == FindOne(cfg, s, "blue-shirt-v2")
      && FindOne(cfg, s, "blue-shirt") == Failure(NotFound(TermNotFoundMessage("blue-shirt")))
  {
    var s := Store([Product(id, f, [], owner)]);
    assert !IsUuid("BLUE SHIRT") && !IsUuid("blue-shirt-v2") && !IsUuid("blue-shirt");
    assert Lower("BLUE SHIRT") == Lower("Blue Shirt");
    assert TermMatches(s.rows[0], "BLUE SHIRT");
    assert TermMatches(s.rows[0], "blue-shirt-v2");
    assert Lower("Blue Shirt")[4] != Lower("blue-shirt")[4];
    assert !TermMatches(s.rows[0], "blue-shirt");
  }

  /** Materialisation only adds the fixed prefix: the URLs `findOnePlain`
      returns strip back to exactly the identifiers `findOne` loaded. */
  lemma FindOnePlainStripsBack(cfg: Config, s: Store, term: string)
    requires FindOnePlain(cfg, s, term).Success?
    ensures RawImages(cfg.hostApi, FindOnePlain(cfg, s, term).value.images)
         == Some(FindOne(cfg, s, term).value.images.GetOr([]))
  {
    var raws := FindOne(cfg, s, term).value.images.GetOr([]);
    assert FindOnePlain(cfg, s, term).value.images == ImageUrls(cfg.hostApi, raws);
    ImageUrlsRoundTrip(cfg.hostApi, raws);
  }

  // ---------------------------------------------------------------- create

  /** A created product is found again by its key, and the store stays valid. */
  lemma CreateThenFindOne(cfg: Config, s: Store, dto: CreateDto, user: User, newId: string)
    requires Valid(s) && IsCanonicalUuid(newId) && !HasId(s, newId)
    ensures var r := Create(cfg, s, dto, user, newId, None);
      && r.Success?
      && Valid(r.value.store)
      && FindOne(cfg, r.value.store, newId) == Success(View(r.value.value.product, cfg.eagerImages))
  {
    var r := Create(cfg, s, dto, user, newId, None);
    var s' := r.value.store;
    var n := |s.rows|;
    assert s'.rows[n] == r.value.value.product;
    assert Valid(s') by {
      forall i, j | 0 <= i < j < |s'.rows|
        ensures s'.rows[i].id != s'.rows[j].id
      {
        if j == n {
          assert s'.rows[i] == s.rows[i];
        }
      }
    }
    UuidIffCanonicalLower(newId);
    assert KeyMatches(s'.rows[n], newId);
    IdIndexUnique(s', newId, n);
  }

  // ---------------------------------------------------------------- findAll

  /** Consecutive pages tile the row order: the page of `n` rows at `o`
      followed by the page of `m` rows at `o + n` is the page of `n + m` rows at `o`. */
  lemma PagesTile<T>(xs: seq<T>, o: nat, n: nat, m: nat)
    ensures Page(xs, Pagination(Some(n), Some(o))) + Page(xs, Pagination(Some(m), Some(o + n)))
         == Page(xs, Pagination(Some(n + m), Some(o)))
  {
  }

  /** Two consecutive pages of `findAll` list the same products as one page
      spanning both, with nothing repeated and nothing skipped. */
  lemma FindAllPagesTile(cfg: Config, s: Store, o: nat, n: nat, m: nat)
    ensures FindAll(cfg, s, Pagination(Some(n), Some(o)), None).value
          + FindAll(cfg, s, Pagination(Some(m), Some(o + n)), None).value
         == FindAll(cfg, s, Pagination(Some(n + m), Some(o)), None).value
  {
  }

  // ---------------------------------------------------------------- update

  /** The row `update` leaves behind for the stored row. */
  function UpdatedRow(stored: Product, patch: Patch, user: User): Product {
    Saved(Preloaded(stored, patch), patch, user)
  }

  /** A successful update replaces exactly the target row: its columns are
      merged with the patch, its images are replaced only when the patch carries
      a list, its owner is the acting user; the response is the re-read row. */
  lemma UpdateSucceeds(cfg: Config, s: Store, id: string, patch: Patch, user: User, fault: Option<TxFault>)
    requires Valid(s) && IdIndex(s, id).Some?
    requires !Interrupts(fault, if patch.images.Some? then 2 else 1)
    ensures var r := Update(cfg, s, id, patch, user, fault);
      var i := IdIndex(s, id).value;
      var row := UpdatedRow(s.rows[i], patch, user);
      && r.Success?
      && Valid(r.value.store)
      && r.value.store.rows == s.rows[i := row]
      && row.id == s.rows[i].id
      && row.fields == Merge(s.rows[i].fields, patch)
      && row.images == (if patch.images.Some? then patch.images.value else s.rows[i].images)
      && row.owner == Some(user)
      && r.value.value == Plain(cfg.hostApi, View(row, cfg.eagerImages))
  {
    var i := IdIndex(s, id).value;
    var saved := UpdatedRow(s.rows[i], patch, user);
    var ops := UpdateOps(id, patch, saved);
    ClearThenSave(s, i, id, saved);
    var committed := Store(s.rows[i := saved]);
    if patch.images.Some? {
      assert ops[1..] == [SaveProduct(saved)];
      assert RunOps(s, ops) == RunOps(ClearImages(s, id), [SaveProduct(saved)]);
      assert RunOps(ClearImages(s, id), [SaveProduct(saved)]) == RunOps(SaveRow(ClearImages(s, id), saved), []);
      assert RunOps(s, ops) == committed;
    } else {
      assert ops == [SaveProduct(saved)];
      assert RunOps(s, ops) == RunOps(SaveRow(s, saved), []);
      assert RunOps(s, ops) == committed;
    }
    assert Valid(committed);
    UuidIffCanonicalLower(id);
    IdIndexUnique(committed, id, i);
  }

  /** A failure after the old images were deleted but before the new ones were
      saved: the working copy at that point has emptied the product's images,
      and the error is the mapped one. That the caller still sees the old images
      holds by construction, since a failure carries no store. */
  lemma UpdateRollsBack(cfg: Config, s: Store, id: string, patch: Patch, user: User, e: DbError)
    requires Valid(s) && IdIndex(s, id).Some? && patch.images.Some?
    ensures var i := IdIndex(s, id).value;
      var ops := UpdateOps(id, patch, UpdatedRow(s.rows[i], patch, user));
      var r := Update(cfg, s, id, patch, user, Some(TxFault(1, e)));
      && Working(s, ops, 1) == ClearImages(s, id)
      && ClearImages(s, id).rows[i].images == []
      && r == Failure(HandleDbExceptions(e))
      && StoreAfter(s, r).rows[i].images == s.rows[i].images
  {
    var i := IdIndex(s, id).value;
    var ops := UpdateOps(id, patch, UpdatedRow(s.rows[i], patch, user));
    var first := ops[..1];
    assert first == [DeleteImagesOf(id)] && first[1..] == [];
    assert RunOps(s, first) == RunOps(ClearImages(s, id), first[1..]);
  }

  /** Repeating an update with the same patch and user changes nothing more. */
  lemma UpdateIdempotent(cfg: Config, s: Store, id: string, patch: Patch, user: User)
    requires Valid(s) && IdIndex(s, id).Some?
    ensures var r := Update(cfg, s, id, patch, user, None);
      && r.Success?
      && Update(cfg, r.value.store, id, patch, user, None).Success?
      && Update(cfg, r.value.store, id, patch, user, None).value.store == r.value.store
  {
    var i := IdIndex(s, id).value;
    UpdateSucceeds(cfg, s, id, patch, user, None);
    var s1 := Update(cfg, s, id, patch, user, None).value.store;
    IdIndexUnique(s1, id, i);
    UpdateSucceeds(cfg, s1, id, patch, user, None);
    MergeIdempotent(s.rows[i].fields, patch);
    var s2 := Update(cfg, s1, id, patch, user, None).value.store;
    assert s2.rows[i] == s1.rows[i];
    assert s2.rows == s1.rows;
  }

  /** A patch carrying only a price leaves description, stock and images as
      they were, and still makes the acting user the owner. */
  lemma PriceOnlyPatchKeepsRest(cfg: Config, s: Store, id: string, price: real, user: User)
    requires Valid(s) && IdIndex(s, id).Some?
    ensures var patch := EmptyPatch.(price := Some(price));
      var r := Update(cfg, s, id, patch, user, None);
      var i := IdIndex(s, id).value;
      && r.Success?
      && |r.value.store.rows| == |s.rows|
      && r.value.store.rows[i].fields.price == price
      && r.value.store.rows[i].fields.description == s.rows[i].fields.description
      && r.value.store.rows[i].fields.stock == s.rows[i].fields.stock
      && r.value.store.rows[i].images == s.rows[i].images
      && r.value.store.rows[i].owner == Some(user)
  {
    UpdateSucceeds(cfg, s, id, EmptyPatch.(price := Some(price)), user, None);
  }

  // ---------------------------------------------------------------- remove

  /** The rows after the first of a valid store form a valid store. */
  lemma TailKeepsValid(rows: seq<Product>)
    requires Valid(Store(rows)) && rows != []
    ensures Valid(Store(rows[1..]))
  {
  }

  /** Putting a row with a fresh canonical key in front of a valid store keeps it valid. */
  lemma ConsKeepsValid(x: Product, w: seq<Product>)
    requires Valid(Store(w)) && IsCanonicalUuid(x.id)
    requires forall k :: 0 <= k < |w| ==> w[k].id != x.id
    ensures Valid(Store([x] + w))
  {
  }

  /** Dropping the rows with one key keeps the store valid. */
  lemma {:induction false} WithoutKeepsValid(rows: seq<Product>, id: string)
    requires Valid(Store(rows))
    ensures Valid(Store(Without(rows, id)))
  {
    if rows != [] {
      var tail := rows[1..];
      TailKeepsValid(rows);
      WithoutKeepsValid(tail, id);
      if rows[0].id != id {
        var w := Without(tail, id);
        forall k | 0 <= k < |w|
          ensures w[k].id != rows[0].id
        {
          assert w[k] in tail;
          var t :| 0 <= t < |tail| && tail[t] == w[k];
          assert tail[t] == rows[t + 1];
        }
        ConsKeepsValid(rows[0], w);
      }
    }
  }

  /** After removing by key, the store is valid and the key is no longer found. */
  lemma RemoveThenNotFound(cfg: Config, s: Store, id: string)
    requires Valid(s) && IsUuid(id)
    requires Remove(cfg, s, id, None).Success?
    ensures Valid(Remove(cfg, s, id, None).value.store)
    ensures FindOne(cfg, Remove(cfg, s, id, None).value.store, id) == Failure(NotFound(TermNotFoundMessage(id)))
  {
    var v := FindOne(cfg, s, id).value;
    WithoutKeepsValid(s.rows, v.id);
  }

  // ---------------------------------------------------------------- deleteAllProducts

  /** After the bulk delete nothing is found, by any term, on any page. */
  lemma DeleteAllThenEmpty(cfg: Config, s: Store, term: string, page: Pagination)
    ensures var r := DeleteAllProducts(s, None);
      && Valid(r.value.store)
      && FindOne(cfg, r.value.store, term).Failure?
      && FindAll(cfg, r.value.store, page, None) == Success([])
  {
  }
}

=== FILE: products_service.dfy ===
/** `ProductsService`: create, list, look up, update and delete products over
    the store, with storage failures supplied as oracle inputs. */
module ProductsService {
  import opened Wrappers
  import opened Text
  import opened Errors
  import opened ProductUrls
  import opened Catalog
  import opened Transactions

  /** Process-wide settings: `HOST_API`, and whether a primary-key `findOneBy`
      loads a product's images (the entity's eager setting, not part of this model). */
  datatype Config = Config(hostApi: string, eagerImages: bool)

  /** A successful operation: the store it leaves behind and the value it returns. */
  datatype Applied<+T> = Applied(store: Store, value: T)

  /** The store the caller observes afterwards: a thrown error leaves the store
      as it was before the call. */
  function StoreAfter<T>(s: Store, r: Result<Applied<T>, HttpError>): Store {
    if r.Success? then r.value.store else s
  }

  /** A product as an entity query returns it: `images` is `None` when the
      relation was not loaded. */
  datatype ProductView = ProductView(id: string, fields: Fields, images: Option<seq<string>>, owner: Option<User>)

  function View(p: Product, imagesLoaded: bool): ProductView {
    ProductView(p.id, p.fields, if imagesLoaded then Some(p.images) else None, p.owner)
  }

  /** A product as returned to HTTP callers: images are served URLs. */
  datatype PlainProduct = PlainProduct(id: string, fields: Fields, images: seq<string>, owner: Option<User>)

  /** Every field kept, images turned into served URLs; unloaded images count as none. */
  function Plain(host: string, v: ProductView): PlainProduct {
    PlainProduct(v.id, v.fields, ImageUrls(host, v.images.GetOr([])), v.owner)
  }

  function TermNotFoundMessage(term: string): string {
    "Product with id or slug \"" + term + "\" not found"
  }

  function IdNotFoundMessage(id: string): string {
    "Product with id: " + id + " not found"
  }

  // ---------------------------------------------------------------- create

  /** `CreateProductDto`: the scalar columns as the entity stores them, and an
      optional list of image identifiers. */
  datatype CreateDto = CreateDto(fields: Fields, images: Option<seq<string>>)

  /** What `create` returns: the saved entity with its raw image identifiers,
      plus a `productWithUrls` object holding the materialised URLs. */
  datatype Created = Created(product: Product, productWithUrls: WithUrls)

  /** The extra object `create` attaches: an object whose only field is the URL list. */
  datatype WithUrls = WithUrls(images: seq<string>)

  /** `create(dto, user)`. `newId` is the key the database generates for the row
      and `fault` the error `save` fails with, if any. */
  function Create(cfg: Config, s: Store, dto: CreateDto, user: User, newId: string, fault: Option<DbError>)
    : (r: Result<Applied<Created>, HttpError>)
    requires IsCanonicalUuid(newId) && !HasId(s, newId)
    ensures fault.Some? ==> r == Failure(HandleDbExceptions(fault.value))
    ensures r.Failure? ==> IsMappedDbError(r.error)
    ensures fault.None? ==> r.Success?
    ensures r.Success? ==>
      var p := r.value.value.product;
      && r.value.store.rows == s.rows + [p]
      && p.id == newId
      && p.fields == dto.fields
      && p.images == dto.images.GetOr([])
      && p.owner == Some(user)
      && |r.value.value.productWithUrls.images| == |p.images|
      && forall k :: 0 <= k < |p.images| ==> r.value.value.productWithUrls.images[k] == ImageUrl(cfg.hostApi, p.images[k])
  {
    var product := Product(newId, dto.fields, dto.images.GetOr([]), Some(user));
    match fault
    case Some(e) => Failure(HandleDbExceptions(e))
    case None => Success(Applied(Store(s.rows + [product]), Created(product, WithUrls(ImageUrls(cfg.hostApi, product.images)))))
  }

  // ---------------------------------------------------------------- findAll

  /** `PaginationDto`: an absent limit takes every row, an absent offset skips none. */
  datatype Pagination = Pagination(limit: Option<nat>, offset: Option<nat>)

  function Min(a: int, b: int): int {
    if a <= b then a else b
  }

  /** `take: limit, skip: offset` over the natural row order. */
  function Page<T>(xs: seq<T>, page: Pagination): (r: seq<T>)
    ensures page.limit.Some? ==> |r| <= page.limit.value
    ensures var skip := Min(page.offset.GetOr(0), |xs|);
      && |r| == (if page.limit.Some? then Min(page.limit.value, |xs| - skip) else |xs| - skip)
      && forall k :: 0 <= k < |r| ==> r[k] == xs[skip + k]
  {
    var rest := xs[Min(page.offset.GetOr(0), |xs|)..];
    if page.limit.Some? && page.limit.value < |rest| then rest[..page.limit.value] else rest
  }

  /** `findAll(pagination)`: one page of products with their images joined and
      materialised; `fault` is the error the query fails with, if any. */
  function FindAll(cfg: Config, s: Store, page: Pagination, fault: Option<DbError>)
    : (r: Result<seq<PlainProduct>, HttpError>)
    ensures fault.Some? ==> r == Failure(HandleDbExceptions(fault.value))
    ensures r.Failure? ==> IsMappedDbError(r.error)
    ensures fault.None? ==> r.Success?
    ensures r.Success? ==> page.limit.Some? ==> |r.value| <= page.limit.value
    ensures r.Success? ==>
      var skip := Min(page.offset.GetOr(0), |s.rows|);
      && |r.value| == |Page(s.rows, page)|
      && forall k :: 0 <= k < |r.value| ==>
           var row := s.rows[skip + k];
           && r.value[k].id == row.id
           && r.value[k].fields == row.fields
           && r.value[k].owner == row.owner
           && r.value[k].images == ImageUrls(cfg.hostApi, row.images)
  {
    match fault
    case Some(e) => Failure(HandleDbExceptions(e))
    case None =>
      var rows := Page(s.rows, page);
      Success(seq(|rows|, k requires 0 <= k < |rows| => Plain(cfg.hostApi, View(rows[k], true))))
  }

  // ---------------------------------------------------------------- findOne

  /** `findOne(term)`: a UUID-shaped term is looked up by primary key only;
      any other term by case-insensitive title or exact slug, first row first. */
  function FindOne(cfg: Config, s: Store, term: string): (r: Result<ProductView, HttpError>)
    ensures r.Failure? ==> r.error == NotFound(TermNotFoundMessage(term))
    ensures IsUuid(term) ==>
      (r.Success? <==> exists i :: 0 <= i < |s.rows| && KeyMatches(s.rows[i], term))
    ensures IsUuid(term) && r.Success? ==>
      && r.value.id == Lower(term)
      && exists i :: 0 <= i < |s.rows| && KeyMatches(s.rows[i], term) && r.value == View(s.rows[i], cfg.eagerImages)
    ensures !IsUuid(term) ==>
      (r.Success? <==> exists i :: 0 <= i < |s.rows| && TermMatches(s.rows[i], term))
    ensures !IsUuid(term) && r.Success? ==>
      exists i :: 0 <= i < |s.rows| && TermMatches(s.rows[i], term) && r.value == View(s.rows[i], true)
        && forall j :: 0 <= j < i ==> !TermMatches(s.rows[j], term)
  {
    var found := if IsUuid(term) then IdIndex(s, term) else TermIndex(s, term);
    match found
    case None => Failure(NotFound(TermNotFoundMessage(term)))
    case Some(i) => Success(View(s.rows[i], !IsUuid(term) || cfg.eagerImages))
  }

  /** `findOnePlain(term)`: `findOne` with the images materialised; a product
      whose images were not loaded is returned with none. */
  function FindOnePlain(cfg: Config, s: Store, term: string): (r: Result<PlainProduct, HttpError>)
    ensures r.Success? <==> FindOne(cfg, s, term).Success?
    ensures r.Failure? ==> r.error == FindOne(cfg, s, term).error
    ensures r.Success? ==>
      var v := FindOne(cfg, s, term).value;
      var raws := v.images.GetOr([]);
      && r.value.id == v.id
      && r.value.fields == v.fields
      && r.value.owner == v.owner
      && |r.value.images| == |raws|
      && forall k :: 0 <= k < |raws| ==> r.value.images[k] == ImageUrl(cfg.hostApi, raws[k])
  {
    match FindOne(cfg, s, term)
    case Failure(e) => Failure(e)
    case Success(v) => Success(Plain(cfg.hostApi, v))
  }

  // ---------------------------------------------------------------- update

  /** The entity `update` loads: the stored row with the patch's columns merged in. */
  function Preloaded(row: Product, patch: Patch): Product {
    row.(fields := Merge(row.fields, patch))
  }

  /** The entity `update` saves: images replaced when the patch carries a list
      (an empty list included), and the acting user as owner. */
  function Saved(entity: Product, patch: Patch, user: User): Product {
    entity.(images := patch.images.GetOr(entity.images), owner := Some(user))
  }

  /** The writes of the update transaction, in order. */
  function UpdateOps(id: string, patch: Patch, saved: Product): (ops: seq<TxOp>)
    ensures |ops| == if patch.images.Some? then 2 else 1
  {
    (if patch.images.Some? then [DeleteImagesOf(id)] else []) + [SaveProduct(saved)]
  }

  /** `update(id, patch, user)`: preload and merge, then in one transaction
      delete the old images if a new list is given, save the entity with the
      acting user as owner, and commit; finally re-read with `findOnePlain`.
      `fault` says which step of the transaction fails, if any. */
  function Update(cfg: Config, s: Store, id: string, patch: Patch, user: User, fault: Option<TxFault>)
    : (r: Result<Applied<PlainProduct>, HttpError>)
    ensures IdIndex(s, id).None? ==> r == Failure(NotFound(IdNotFoundMessage(id)))
    ensures IdIndex(s, id).Some? && Interrupts(fault, if patch.images.Some? then 2 else 1) ==>
      r == Failure(HandleDbExceptions(fault.value.error))
    ensures r.Failure? ==>
      || r.error == NotFound(IdNotFoundMessage(id))
      || r.error == NotFound(TermNotFoundMessage(id))
      || IsMappedDbError(r.error)
  {
    match IdIndex(s, id)
    case None => Failure(NotFound(IdNotFoundMessage(id)))
    case Some(i) =>
      var saved := Saved(Preloaded(s.rows[i], patch), patch, user);
      match RunTransaction(s, UpdateOps(id, patch, saved), fault)
      case Failure(e) => Failure(HandleDbExceptions(e))
      case Success(committed) =>
        match FindOnePlain(cfg, committed, id)
        case Failure(e) => Failure(e)
        case Success(v) => Success(Applied(committed, v))
  }

  // ---------------------------------------------------------------- remove

  /** The rows whose key is not `id`, in their original order. */
  function Without(rows: seq<Product>, id: string): (r: seq<Product>)
    ensures |r| <= |rows|
    ensures forall k :: 0 <= k < |r| ==> r[k].id != id && r[k] in rows
    ensures forall k :: 0 <= k < |rows| && rows[k].id != id ==> rows[k] in r
    ensures (forall k :: 0 <= k < |rows| ==> rows[k].id != id) ==> r == rows
  {
    if rows == [] then []
    else if rows[0].id == id then Without(rows[1..], id)
    else [rows[0]] + Without(rows[1..], id)
  }

  /** No key occurs twice among the rows. */
  predicate DistinctIds(rows: seq<Product>) {
    forall a, b :: 0 <= a < b < |rows| ==> rows[a].id != rows[b].id
  }

  /** When keys are distinct, dropping the rows with a present key deletes
      exactly that one row and keeps the others in order. */
  lemma {:induction false} WithoutDeletesOne(rows: seq<Product>, id: string, i: nat)
    requires DistinctIds(rows)
    requires i < |rows| && rows[i].id == id
    ensures Without(rows, id) == rows[..i] + rows[i + 1..]
  {
    DistinctTail(rows);
    if i == 0 {
      WithoutDeletesHead(rows, id);
    } else {
      WithoutDeletesOne(rows[1..], id, i - 1);
      WithoutKeepsHead(rows, id, i);
    }
  }

  /** The matching row is the first one and the key occurs nowhere else. */
  lemma WithoutDeletesHead(rows: seq<Product>, id: string)
    requires DistinctIds(rows) && rows != [] && rows[0].id == id
    ensures Without(rows, id) == rows[..0] + rows[1..]
  {
    var tail := rows[1..];
    forall k | 0 <= k < |tail|
      ensures tail[k].id != id
    {
      assert tail[k] == rows[k + 1];
    }
  }

  /** A non-matching first row stays in front of the deletion done on the tail. */
  lemma WithoutKeepsHead(rows: seq<Product>, id: string, i: nat)
    requires DistinctIds(rows) && 0 < i < |rows| && rows[i].id == id
    requires Without(rows[1..], id) == rows[1..][..i - 1] + rows[1..][i..]
    ensures Without(rows, id) == rows[..i] + rows[i + 1..]
  {
    var tail := rows[1..];
    assert rows[0].id != id;
    assert rows[..i] == [rows[0]] + tail[..i - 1];
    assert rows[i + 1..] == tail[i..];
  }

  lemma DistinctTail(rows: seq<Product>)
    requires DistinctIds(rows) && rows != []
    ensures DistinctIds(rows[1..])
  {
    var tail := rows[1..];
    forall a, b | 0 <= a < b < |tail|
      ensures tail[a].id != tail[b].id
    {
      assert tail[a] == rows[a + 1] && tail[b] == rows[b + 1];
    }
  }

  /** `remove(id)`: resolve the argument as `findOne` does, then delete that
      row and its images. The delete is not routed through the error mapping:
      its failure `fault` escapes unchanged. */
  function Remove(cfg: Config, s: Store, id: string, fault: Option<DbError>)
    : (r: Result<Applied<ProductView>, HttpError>)
    ensures FindOne(cfg, s, id).Failure? ==> r == Failure(FindOne(cfg, s, id).error)
    ensures FindOne(cfg, s, id).Success? && fault.Some? ==> r == Failure(Unhandled(fault.value))
    ensures FindOne(cfg, s, id).Success? && fault.None? ==> r.Success?
    ensures r.Success? && DistinctIds(s.rows) ==>
      exists i :: 0 <= i < |s.rows| && s.rows[i].id == r.value.value.id
        && r.value.store.rows == s.rows[..i] + s.rows[i + 1..]
    ensures r.Success? ==>
      var removed := r.value.value;
      && removed == FindOne(cfg, s, id).value
      && !HasId(r.value.store, removed.id)
      && (forall k :: 0 <= k < |r.value.store.rows| ==> r.value.store.rows[k] in s.rows)
      && (forall k :: 0 <= k < |s.rows| && s.rows[k].id != removed.id ==> s.rows[k] in r.value.store.rows)
  {
    match FindOne(cfg, s, id)
    case Failure(e) => Failure(e)
    case Success(v) =>
      match fault
      case Some(e) => Failure(Unhandled(e))
      case None =>
        if DistinctIds(s.rows) then
          var i :| 0 <= i < |s.rows| && s.rows[i].id == v.id;
          WithoutDeletesOne(s.rows, v.id, i);
          Success(Applied(Store(Without(s.rows, v.id)), v))
        else Success(Applied(Store(Without(s.rows, v.id)), v))
  }

  // ---------------------------------------------------------------- deleteAllProducts

  /** `deleteAllProducts()`: delete every row; the result is the number of rows
      affected. */
  function DeleteAllProducts(s: Store, fault: Option<DbError>): (r: Result<Applied<nat>, HttpError>)
    ensures fault.Some? ==> r == Failure(HandleDbExceptions(fault.value))
    ensures r.Failure? ==> IsMappedDbError(r.error)
    ensures fault.None? ==> r.Success? && r.value.store.rows == [] && r.value.value == |s.rows|
  {
    match fault
    case Some(e) => Failure(HandleDbExceptions(e))
    case None => Success(Applied(Store([]), |s.rows|))
  }
}

=== FILE: text.dfy ===
/** Character-level helpers: ASCII case folding and the textual UUID layout
    of section 3 of RFC 4122 (8-4-4-4-12 hexadecimal digits). */
module Text {

  /** ASCII lower-casing of one character; every other character is kept. */
  function LowerChar(c: char): char {
    if 'A' <= c <= 'Z' then (c as int + 32) as char else c
  }

  /** `LOWER(s)`, restricted to ASCII letters. */
  function Lower(s: string): (r: string)
    ensures |r| == |s|
    ensures forall i :: 0 <= i < |s| ==> r[i] == LowerChar(s[i])
    ensures forall i :: 0 <= i < |r| ==> !('A' <= r[i] <= 'Z')
  {
    seq(|s|, i requires 0 <= i < |s| => LowerChar(s[i]))
  }

  /** Two strings are equal under `LOWER` exactly when they have the same length
      and agree character by character up to ASCII case. */
  lemma LowerEqualIffCaseless(a: string, b: string)
    ensures Lower(a) == Lower(b) <==>
      |a| == |b| && forall i :: 0 <= i < |a| ==> LowerChar(a[i]) == LowerChar(b[i])
  {
    if |a| == |b| && forall i :: 0 <= i < |a| ==> LowerChar(a[i]) == LowerChar(b[i]) {
      assert forall i :: 0 <= i < |a| ==> Lower(a)[i] == Lower(b)[i];
    }
  }

  predicate IsHexDigit(c: char) {
    '0' <= c <= '9' || 'a' <= c <= 'f' || 'A' <= c <= 'F'
  }

  /** The positions of the four hyphens in an 8-4-4-4-12 layout. */
  predicate IsDashPosition(i: int) {
    i == 8 || i == 13 || i == 18 || i == 23
  }

  /** `isUUID(term)`: 36 characters, hyphens at the group boundaries and
      hexadecimal digits of either case everywhere else. */
  predicate IsUuid(s: string) {
    |s| == 36 &&
    forall i :: 0 <= i < |s| ==> if IsDashPosition(i) then s[i] == '-' else IsHexDigit(s[i])
  }

  /** Every character of `t` is a hexadecimal digit. */
  predicate AllHex(t: string) {
    forall k :: 0 <= k < |t| ==> IsHexDigit(t[k])
  }

  /** `IsUuid` is the 8-4-4-4-12 pattern: five groups of hex digits of
      lengths 8, 4, 4, 4 and 12, separated by single hyphens. */
  lemma UuidGroups(s: string)
    ensures IsUuid(s) <==>
      && |s| == 36
      && s[8] == '-' && s[13] == '-' && s[18] == '-' && s[23] == '-'
      && AllHex(s[..8]) && AllHex(s[9..13]) && AllHex(s[14..18]) && AllHex(s[19..23]) && AllHex(s[24..])
  {
    if |s| == 36 {
      var g0, g1, g2, g3, g4 := s[..8], s[9..13], s[14..18], s[19..23], s[24..];
      if IsUuid(s) {
        assert forall k :: 0 <= k < 8 ==> g0[k] == s[k];
        assert forall k :: 0 <= k < 4 ==> g1[k] == s[9 + k] && g2[k] == s[14 + k] && g3[k] == s[19 + k];
        assert forall k :: 0 <= k < 12 ==> g4[k] == s[24 + k];
      }
      if s[8] == '-' && s[13] == '-' && s[18] == '-' && s[23] == '-'
        && AllHex(g0) && AllHex(g1) && AllHex(g2) && AllHex(g3) && AllHex(g4)
      {
        forall i | 0 <= i < 36 && !IsDashPosition(i)
          ensures IsHexDigit(s[i])
        {
          if i < 8 { assert s[i] == g0[i]; }
          else if i < 13 { assert s[i] == g1[i - 9]; }
          else if i < 18 { assert s[i] == g2[i - 14]; }
          else if i < 23 { assert s[i] == g3[i - 19]; }
          else { assert s[i] == g4[i - 24]; }
        }
      }
    }
  }

  /** The form in which the database prints a uuid key: lower-case hex. */
  predicate IsCanonicalUuid(s: string) {
    IsUuid(s) && Lower(s) == s
  }

  /** A term is UUID-shaped exactly when its lower-cased form is a canonical key,
      so the id branch of a lookup can only ever match UUID-shaped terms. */
  lemma UuidIffCanonicalLower(t: string)
    ensures IsUuid(t) <==> IsCanonicalUuid(Lower(t))
  {
  }
}

=== FILE: transactions.dfy ===
/** The query runner's transaction: a sequence of writes applied to a working
    copy of the store, committed as a whole or rolled back as a whole. */
module Transactions {
  import opened Wrappers
  import opened Errors
  import opened Text
  import opened Catalog

  /** The writes `update` issues inside its transaction. */
  datatype TxOp =
    | DeleteImagesOf(key: string)   // delete every image row of the product with this key
    | SaveProduct(entity: Product)  // write the whole entity, its image list included

  /** Deleting the image rows of the product with key `key`. */
  function ClearImages(s: Store, key: string): (r: Store)
    ensures |r.rows| == |s.rows|
    ensures forall i :: 0 <= i < |s.rows| ==>
      && r.rows[i].id == s.rows[i].id
      && r.rows[i].fields == s.rows[i].fields
      && r.rows[i].owner == s.rows[i].owner
    ensures Valid(s) ==> Valid(r)
    ensures Valid(s) && IdIndex(s, key).Some? ==>
      r == Store(s.rows[IdIndex(s, key).value := s.rows[IdIndex(s, key).value].(images := [])])
    ensures IdIndex(s, key).None? ==> r == s
  {
    Store(seq(|s.rows|, i requires 0 <= i < |s.rows| =>
      if KeyMatches(s.rows[i], key) then s.rows[i].(images := []) else s.rows[i]))
  }

  /** `save` of a whole entity: overwrites the row with the same key, or inserts. */
  function SaveRow(s: Store, p: Product): (r: Store)
    ensures !HasId(s, p.id) ==> r.rows == s.rows + [p]
    ensures HasId(s, p.id) ==>
      exists i :: 0 <= i < |s.rows| && s.rows[i].id == p.id && r.rows == s.rows[i := p]
    ensures Valid(s) && IsCanonicalUuid(p.id) ==> Valid(r)
  {
    match FirstIndex(s.rows, (row: Product) => row.id == p.id)
    case Some(i) => Store(s.rows[i := p])
    case None => Store(s.rows + [p])
  }

  function ApplyOp(s: Store, op: TxOp): Store {
    match op
    case DeleteImagesOf(key) => ClearImages(s, key)
    case SaveProduct(p) => SaveRow(s, p)
  }

  /** The working copy after running `ops` in order. */
  function RunOps(s: Store, ops: seq<TxOp>): Store
    decreases |ops|
  {
    if ops == [] then s else RunOps(ApplyOp(s, ops[0]), ops[1..])
  }

  /** Which step of the transaction fails, if any: steps `0 .. |ops|-1` are the
      writes, step `|ops|` is the commit; a step past the commit never runs. */
  datatype TxFault = TxFault(step: nat, error: DbError)

  /** Whether the fault oracle interrupts a transaction of `n` writes. */
  predicate Interrupts(fault: Option<TxFault>, n: nat) {
    fault.Some? && fault.value.step <= n
  }

  /** The state of the working copy when step `k` is about to run: what a
      failure at step `k` would leave behind if it were committed. */
  function Working(s: Store, ops: seq<TxOp>, k: nat): Store
    requires k <= |ops|
  {
    RunOps(s, ops[..k])
  }

  /** Running two batches of writes one after the other is running them together. */
  lemma {:induction false} RunOpsConcat(s: Store, a: seq<TxOp>, b: seq<TxOp>)
    ensures RunOps(s, a + b) == RunOps(RunOps(s, a), b)
    decreases |a|
  {
    if a != [] {
      assert (a + b)[0] == a[0] && (a + b)[1..] == a[1..] + b;
      RunOpsConcat(ApplyOp(s, a[0]), a[1..], b);
    } else {
      assert a + b == b;
    }
  }

  /** The working copy advances one write at a time: after `k + 1` writes it is
      the state after `k` writes with write `k` applied. */
  lemma WorkingStep(s: Store, ops: seq<TxOp>, k: nat)
    requires k < |ops|
    ensures Working(s, ops, k + 1) == ApplyOp(Working(s, ops, k), ops[k])
  {
    assert ops[..k + 1] == ops[..k] + [ops[k]];
    RunOpsConcat(s, ops[..k], [ops[k]]);
    assert [ops[k]][1..] == [];
  }

  /** Whatever point of the transaction is taken, the committed store is the
      working copy at that point with the remaining writes applied. */
  lemma CommitExtendsEveryCut(s: Store, ops: seq<TxOp>)
    ensures forall k :: 0 <= k <= |ops| ==> RunOps(s, ops) == RunOps(Working(s, ops, k), ops[k..])
  {
    forall k | 0 <= k <= |ops|
      ensures RunOps(s, ops) == RunOps(Working(s, ops, k), ops[k..])
    {
      assert ops == ops[..k] + ops[k..];
      RunOpsConcat(s, ops[..k], ops[k..]);
    }
  }

  /** startTransaction, the writes, commitTransaction; on any failure
      rollbackTransaction. A failure carries no store: the caller keeps the
      state it had before the transaction started. */
  function RunTransaction(s: Store, ops: seq<TxOp>, fault: Option<TxFault>): (r: Result<Store, DbError>)
    ensures r.Failure? <==> Interrupts(fault, |ops|)
    ensures r.Failure? ==> r.error == fault.value.error
    ensures r.Success? ==> forall k :: 0 <= k <= |ops| ==> r.value == RunOps(Working(s, ops, k), ops[k..])
  {
    CommitExtendsEveryCut(s, ops);
    if Interrupts(fault, |ops|) then Failure(fault.value.error) else Success(RunOps(s, ops))
  }

  /** In a valid store, deleting a product's images and then saving an entity
      with the same key replaces exactly that row: no other row changes. */
  lemma ClearThenSave(s: Store, i: nat, key: string, p: Product)
    requires Valid(s)
    requires i < |s.rows| && KeyMatches(s.rows[i], key) && p.id == s.rows[i].id
    ensures SaveRow(ClearImages(s, key), p) == Store(s.rows[i := p])
    ensures SaveRow(s, p) == Store(s.rows[i := p])
  {
  }
}

=== FILE: wrappers.dfy ===
/** Option and Result datatypes used throughout the model. */
module Wrappers {

  /** An optional value: a JavaScript `undefined` is `None`. */
  datatype Option<+T> = None | Some(value: T) {

    /** The carried value, or `default` when absent (JavaScript `x ?? default`). */
    function GetOr(default: T): T {
      match this
      case Some(v) => v
      case None => default
    }
  }

  /** Either a value or the exception an operation throws. */
  datatype Result<+R, +E> = Success(value: R) | Failure(error: E)
}
